=== FILE: README.md ===
# Account lifecycle and credentials of an Express/Mongoose backend

This project is a Dafny model of the user-account core of a small
workforce-management HTTP backend (KRYSTO-NC/backend_template_express_mongoose).
It covers:

- **The user model** (`models/User.js`). This is the schema's validation rules
  (role enumeration and default, required fields, the password minimum of six
  UTF-16 code units, the e-mail pattern, the unique e-mail index). It also covers the
  pre-save hook:
  - it hashes a newly assigned password;
  - it sorts the contracts in place by start date;
  - it sets the entry date once, from the earliest contract;
  - it recomputes `actif` with a scan that stops at the first running contract.

  Finally it covers the instance methods: password check, session token and
  reset-token issuance.
- **The authentication handlers** (`controllers/auth.js`): register, login,
  logout, update of details, update of the password, forgot password with its
  rollback when the mail fails, reset password, and the token reply with its
  cookie.
- **The user handlers that carry logic** (`controllers/users.js`): account
  creation (stored first, then mailed) and the profile-photo upload with its
  ordered checks and the file name it builds.

Module layout:

| file | module | what it holds |
|---|---|---|
| `wrappers.dfy` | `Wrappers` | `Option` |
| `employment_contracts.dfy` | `EmploymentContracts` | the contract record, the activity predicate, the stable sort by start date (as a function, with its properties, and as an in-place insertion sort on the array), the scan for a running contract |
| `environment.dfy` | `Environment` | the library primitives (bcrypt, SHA-256, JWT signing, the e-mail pattern) as uninterpreted functions, the environment settings |
| `user_model.dfy` | `UserModel` | roles, schema validation, reset-token acceptance, the `Document` value and the `Account` class with its hook and methods |
| `storage.dfy` | `Storage` | the collection (`UserStore`): `findOne`, saving a loaded account, `create` |
| `http.dfy` | `Http` | what a handler answers |
| `auth_controller.dfy` | `AuthController` | the authentication handlers |
| `users_controller.dfy` | `UsersController` | account creation and photo upload |

Conventions of the model:

- **Accounts are objects.** A persisted account is an `Account` object whose
  fields the handlers and the hook assign in place. Its contract list is an
  array that the hook sorts in place. `Account.Doc()` reads the whole record
  as a `Document` value, and every state-changing method states its new state
  as a function of `old(Doc())`.
- **Outside inputs are parameters.** Randomness (bcrypt's salt, the twenty
  random bytes of a reset token as hex, the id the driver gives a new
  document) and the clock are parameters. So are the outcomes of I/O (mail
  delivered or not, file moved or not). All reads of the clock during one
  request are one instant, `now`, in milliseconds.
- **Validation before the hook.** Mongoose runs a document's validators
  before its pre-save hooks, and a refused save persists nothing. So each
  handler whose save validates checks `Violations` first and changes nothing
  when it refuses. `ForgotPassword` is the exception: both of its saves skip
  validation (`validateBeforeSave: false`), and the model checks nothing there.
- **Empty request fields.** A request field that is absent or empty is the
  empty string wherever the source tests it for falsiness. So is an absent
  new password (`newPassword`, the reset `password`): the schema refuses
  `""` and `undefined` alike, on `password`. Where the source passes a field
  on to an update, an absent one is `None`. An absent `currentPassword` is
  `None` as well, and bcrypt then rejects it.
- **The collection** is a sequence of accounts in insertion order. Its
  invariant (`UserStore.Valid`) says:
  - ids and e-mails are unique;
  - no two accounts share a contract array;
  - nothing stored holds an unhashed password.

## Model

| member | source | states |
|---|---|---|
| EmploymentContracts.IsActive | models/User.js:73-76 | defines a running contract: started no later than `now`, and either without an end date or ending no earlier than `now` |
| EmploymentContracts.AnyActive | models/User.js:72-81 | defines the scan's answer: some contract of the list is running at `now` |
| EmploymentContracts.Insert | models/User.js:60 | defines one step of the stable sort: the contract goes after every contract that starts no later than it |
| EmploymentContracts.SortByStart | models/User.js:60 | defines the stable sort of a contract list by start date, by insertion from the front |
| EmploymentContracts.EarliestStart | models/User.js:63-65 | the earliest start date of a non-empty contract list is a lower bound of all start dates and is the start date of one of them |
| EmploymentContracts.SortByStartPermutes | models/User.js:60 | sorting by start date keeps exactly the same contracts (same multiset, same length) |
| EmploymentContracts.SortByStartSorted | models/User.js:60 | after the sort, start dates ascend |
| EmploymentContracts.SortByStartStable | models/User.js:60 | contracts with equal start dates keep their relative order (the sort is stable, as `Array.prototype.sort` is) |
| EmploymentContracts.StableSortIsUnique | models/User.js:60 | any sorted reordering that keeps the runs of equal start dates in order is this sort's result, so the model agrees with every stable sort |
| EmploymentContracts.SortedRunsDetermine | models/User.js:60 | two sorted lists with the same runs of equal start dates are equal |
| EmploymentContracts.SortByStartFixesSorted | models/User.js:60 | sorting an already sorted list changes nothing |
| EmploymentContracts.SortedHeadIsEarliest | models/User.js:60-64 | the first contract after the sort has the earliest start date |
| EmploymentContracts.AnyActiveIgnoresOrder | models/User.js:72-81 | whether some contract is running does not depend on the order of the list |
| EmploymentContracts.SortKeepsEarliestAndActive | models/User.js:60-84 | after the sort, the list has the same length, its head has the earliest start, and whether some contract is running is unchanged |
| EmploymentContracts.InsertInPlace | models/User.js:60 | one insertion step on the array: the prefix becomes the stable insertion of the next element, and the rest of the array is untouched |
| EmploymentContracts.SortInPlace | models/User.js:60 | the in-place sort leaves the array holding the stable sort by start date of its old contents |
| EmploymentContracts.FindActive | models/User.js:67-84 | the scan with its early exit answers exactly whether some contract has started at `now` and has not ended before it (no end date counts as running) |
| UserModel.RoleFor | models/User.js:15-19 | a missing role becomes `user`; a supplied role is accepted exactly when it is `superAdmin`, `admin` or `user`, and it is stored under that name |
| UserModel.RoleNameRoundTrip | models/User.js:15-19 | each role is accepted under its own name, and distinct roles have distinct names |
| UserModel.Utf16Length | models/User.js:33 | a string's length as JavaScript counts it lies between its number of characters and twice that, and equals it when no character is outside the Basic Multilingual Plane |
| UserModel.Utf16LengthAppend | models/User.js:33 | that length adds up over concatenation |
| UserModel.Utf16LengthChar | models/User.js:33 | a single character counts one code unit inside the Basic Multilingual Plane and two outside it |
| UserModel.AstralPasswordLength | models/User.js:33 | three characters outside the Basic Multilingual Plane are six code units long, so they meet the password minimum |
| UserModel.Violations | models/User.js:9-35 | a save is refused exactly when the username or email is missing, the email does not match the pattern, a newly assigned password is shorter than six UTF-16 code units, or the role is outside the enumeration |
| UserModel.UpdateViolations | controllers/auth.js:93-96 | a validated update refuses a path exactly when the update supplies it and the save's rule for that path refuses the value; it refuses no other path, and with none supplied refuses nothing |
| UserModel.ResetTokenAccepts | controllers/auth.js:185-188 | defines the reset filter: the stored token is the candidate's digest and the stored expiry is strictly after `now` |
| UserModel.IssuedTokenLifetime | models/User.js:99-107 | an issued token is accepted at every instant strictly before issue time plus 600000 ms and at none after |
| UserModel.OtherTokenRefused | controllers/auth.js:177-188 | a candidate whose SHA-256 digest differs from the stored one is refused whatever the time |
| UserModel.ClearedTokenRefusesAll | controllers/auth.js:202-204 | an account with both reset fields cleared accepts no candidate |
| UserModel.AfterHook | models/User.js:49-87 | defines the document the hook leaves: the password hashed if modified, the contracts stably sorted, the entry date set once from the earliest start, `actif` from the running contracts |
| UserModel.Saved | models/User.js:49-87 | defines what a save stores: the hook's document with the password no longer marked modified |
| UserModel.HookProperties | models/User.js:49-87 | the hook hashes the password exactly when it is marked modified. The contracts become a stable, sorted permutation. An unset entry date becomes the minimum start when there is a contract and is otherwise unchanged. `actif` holds iff some contract is running (false with none). No other field changes |
| UserModel.SaveIdempotent | models/User.js:49-87 | saving an already saved document at the same instant stores the same document |
| UserModel.RollbackRestores | controllers/auth.js:136-161 | issuing a token, saving, clearing both fields and saving again stores what one save of the document without a pending token stores |
| Environment.BcryptKey | models/User.js:95-97 | defines the 72-byte key bcrypt takes from a plaintext: its UTF-8 bytes and a NUL terminator, read round and round |
| Environment.BcryptKeyTruncates | models/User.js:95-97 | a plaintext of at least 72 UTF-8 bytes keys on its first 72 bytes, so anything after them is ignored |
| Environment.BcryptKeyRepeats | models/User.js:95-97 | a plaintext and the same plaintext repeated after a NUL have the same key |
| UserModel.SavedPasswordMatches | models/User.js:95-97 | after a save that hashed a newly assigned password, that password matches; if bcrypt refuses plaintexts with another key, a password with a different bcrypt key does not |
| UserModel.Account.constructor | models/User.js:7-46 | a new document has the given fields, a freshly assigned password, no reset token, no entry date, no contracts, and `actif` false |
| UserModel.Account.SetPassword | controllers/auth.js:119 | assigning a password stores the value; it is marked modified when it was already, when the query did not load the password, or when the value differs from the loaded one; the assignment of the loaded value itself changes nothing. No other field changes |
| UserModel.Account.PreSave | models/User.js:49-87 | the hook, run in place (hash, sort of the contract array, entry date, scan), leaves the document the hook's specification describes |
| UserModel.Account.Save | models/User.js:49-87 | a save runs the hook and then records the password as no longer freshly assigned |
| UserModel.Account.GetResetPasswordToken | models/User.js:99-107 | the raw token is returned. Only its SHA-256 digest is stored, with an expiry of `now` plus 10 minutes, which the stored fields accept at `now`. Nothing else changes |
| Storage.Matches | controllers/auth.js:185-188 | defines the filters the handlers pass to the lookup: by id, by email, and by reset digest with an unexpired token |
| Storage.FirstMatch | controllers/auth.js:36 | the lookup finds nothing exactly when no account matches, and otherwise the first account that matches |
| Storage.UserStore.constructor | models/User.js:110 | an empty collection satisfies the collection's invariant |
| Storage.UserStore.UniqueLookup | models/User.js:21-24 | in a valid collection, the lookup by an account's id or by its email finds that account |
| Storage.UserStore.SaveAccount | controllers/auth.js:206 | saving a loaded account stores what the hook makes of it, leaves every other account unchanged, and restores the collection's invariant |
| Storage.UserStore.Create | controllers/auth.js:14-19 | a refused validation or a taken email stores nothing. Otherwise one account is appended, built from the request with the role's default and a hashed password. The invariant is kept |
| AuthController.SendTokenResponse | controllers/auth.js:214-236 | the reply carries the token signed for the account's id at `now`, in the body and in the `token` cookie. It also carries the account's role and customer. The cookie is http-only, secure exactly in production, and expires JWT_COOKIE_EXPIRE × 86400000 ms after `now` |
| AuthController.Logout | controllers/auth.js:55-65 | the session cookie is replaced by `none`, expiring 10000 ms after `now`, with an empty 200 reply |
| AuthController.Login | controllers/auth.js:27-50 | a missing email or password gets 400 before any lookup. Login succeeds iff some account has that email and the password matches, and then sends that account's token. An unknown email and a wrong password get the same 401 |
| AuthController.Register | controllers/auth.js:10-22 | a refused validation or a taken email stores nothing. Otherwise one account is appended with the given id, username and email, the role given or `user`, the hashed password and nothing else set, and its token is sent |
| AuthController.ResetPassword | controllers/auth.js:170-211 | 400 "Invalid token" with nothing changed iff no account holds the candidate's digest with an expiry strictly after `now`. Otherwise that account alone changes: new password hashed, both reset fields cleared together, token sent (or a refused validation with nothing changed) |
| AuthController.ClearResetToken | controllers/auth.js:203-204 | both reset fields of one account are cleared together; nothing else changes |
| AuthController.SetPasswordAndSave | controllers/auth.js:119-120 | the new password of one account is stored hashed when the assignment is a modification (the password was not loaded, or the value differs from the loaded hash), and as assigned otherwise; no other account changes and the invariant is kept |
| AuthController.UpdateDetails | controllers/auth.js:82-106 | the checks run in order: 401 without a signed-in id, then a validation refusal, then 404, then a duplicate email. Otherwise only the supplied username and email of that account change, and it is returned. Every refusal changes nothing |
| AuthController.UpdateFields | controllers/auth.js:93-96 | the supplied fields of one account are written, no other account changes, and e-mails stay unique |
| AuthController.UpdatePassword | controllers/auth.js:111-123 | an unknown account or a missing current password raises an error, and a wrong current password gets 401; none of these changes anything. Otherwise the new password is validated and stored hashed, unless it equals the loaded hash, which is no modification and stays as it is; a new token is sent. No other account changes |
| AuthController.ForgotPassword | controllers/auth.js:128-165 | an unknown email gets 404. Otherwise the account's token digest is stored with a 10-minute expiry, and it is accepted at `now`. A failed mail clears both fields again and gets 500. No other account changes |
| AuthController.IssueResetToken | controllers/auth.js:136-138 | issuing and saving a reset token changes that account only as the hook and the issuance say, and keeps the invariant |
| UsersController.PhotoFileName | controllers/users.js:121 | defines the stored photo name: `profile_`, the account id, then the extension of the uploaded name |
| UsersController.PhotoNameParts | controllers/users.js:121 | a photo name splits back into its prefix, the account id and the extension |
| UsersController.PhotoNamesDistinct | controllers/users.js:121 | for ids of equal length, two photo names are equal exactly when ids and extensions are |
| UsersController.CreateUser | controllers/users.js:29-46 | the account is created first (refusals store nothing; the new document holds the given id, username and email, the role given or `user`, the hashed password and nothing else). A failed mail then gets 500, but the account stays stored; a delivered mail gets 201 with the account |
| UsersController.UploadUserPhoto | controllers/users.js:90-138 | the checks run in order: 404 for an unknown id, 400 without files, an unhandled error when the files hold no `photo` or several, 400 for a non-image mimetype, 400 for a size strictly above the limit. A failed move gets 500 with `photo` unchanged. Otherwise `photo` becomes `profile_` + id + extension and is returned |

## Left out

- Cryptography: bcrypt, SHA-256, random bytes and JWT signing are not modelled inside. They are uninterpreted functions, or parameters for their random outputs. A property that needs something of them (bcrypt verifying its own hash) takes it as a hypothesis.
- The e-mail pattern of the schema is an uninterpreted predicate; regular-expression semantics are not modelled.
- `populate('contrats')`: the hook works on the contract list as already loaded. The Contract model itself is not part of this model.
- Contract dates are milliseconds. A contract without a start date, or with a start that is not a date (the sort comparator then yields NaN), is not modelled.
- Persistence is a sequence of in-memory objects. Concurrency, connection errors, `timestamps` (`createdAt`/`updatedAt`), the absence of the hash from the accounts other queries return (the `select: false` projection, which the model keeps only for its effect on what counts as a password modification) and `findByIdAndUpdate` as a query are not modelled; only the update's effect on the fields is.
- The unique index is modelled as a check before the write. The race between two concurrent writers is not modelled.
- The error middleware is not part of this model. `ValidationError`, `DuplicateKey` and `Unhandled` stand for the errors it receives, not for the status codes it sends.
- `protect` and the role guard are not part of this model. `UpdatePassword` takes the signed-in id as given. `UpdateDetails` models the id being absent.
- A request id that is not a valid ObjectId (a cast error in `findById`) is not modelled.
- The error message bcrypt raises when `currentPassword` is missing is not modelled; the model records only that the handler fails (`Unhandled`).
- `Settings.jwtCookieExpireDays`: JWT_COOKIE_EXPIRE is a whole number of days. The string arithmetic of the source is not modelled: a fractional value (a cookie of part of a day) and an unset one (NaN, an invalid date that makes `res.cookie` throw) are left out.
- `Storage.Matches`: an id is compared as the exact string. `findById` casts it to an ObjectId, which also accepts upper-case hex, and the photo name uses the lower-case `user._id`; an id in another case is not modelled.
- The JWT library's payload, secret and JWT_EXPIRE are inside `signJwt`; the model keeps only that the token depends on the account id and the issue instant.
- `ForgotPassword` looks up the email as a string. A request with no email, where the driver receives `{ email: undefined }`, is not modelled.
- `Register` and `CreateUser` pass the four schema fields; any other field of the request body, which `createUser` would also hand to `User.create`, is not modelled.
- `photo`, `customer`, `contrats`, `entryDate` and `actif` are modelled as account fields, though the schema shown declares none of them. Under Mongoose's strict mode a field absent from the schema is dropped by the update.
- `path.parse(name).ext` is taken as the input `ext`. `file.mv` and the mail delivery are their outcomes (`moved`, `delivered`). Mail contents, URLs and logging are not modelled.
- `UsersController.UploadUserPhoto`: MAX_FILE_UPLOAD is compared as the number it coerces to (`Settings.maxFileUpload`); a value that is not numeric (NaN, which lets every size through) is not modelled.
- The clock: every reading of the time within one request is the same instant, `now`.
- Mongoose 7 and later drop `undefined` fields from an update; `UpdateDetails` follows that behaviour (an omitted field is `None` and untouched).
- The routing table, `server.js`, the database connection and the CRUD passthroughs (`getUsers`, `getUser`, `updateUser`, `deleteUser`, `getMe`) have no logic beyond a library call. `UserModel.Account.SignedJwtToken` and `UserModel.Account.MatchPassword` are single library calls, specified through the primitives.

=== FILE: auth_controller.dfy ===
/**
  The authentication handlers: register, login, logout, update of details
  and of the password, and the forgot/reset password pair.

  Each handler reads its request fields as parameters (a field the request
  leaves out, or sends empty, is ""), the current instant as `now`, and the
  outcome of each outside call it makes (the e-mail delivery, the random
  bytes, bcrypt's salt) as a further parameter.
*/
module AuthController {
  import opened Wrappers
  import opened Environment
  import opened UserModel
  import opened Storage
  import opened Http

  /** The logout cookie lives ten seconds. */
  const LOGOUT_COOKIE_MS := 10 * 1000

  /** Signs a session token for `user` and answers with it, in the body and
      in the `token` cookie, which expires JWT_COOKIE_EXPIRE days from now. */
  function SendTokenResponse(prim: Primitives, env: Settings, user: Account, statusCode: int, now: int): (r: Response)
    reads user
    ensures r.Json? && r.status == statusCode && r.body.TokenBody? && r.cookie.Some?
    ensures r.body.token == prim.signJwt(user.id, now) && r.cookie.value.value == r.body.token
    ensures r.body.role == user.role && r.body.customer == user.customer
    ensures r.cookie.value.name == "token" && r.cookie.value.httpOnly
    ensures r.cookie.value.secure == env.production
    ensures r.cookie.value.expires - now == env.jwtCookieExpireDays * 86400000
  {
    var token := user.SignedJwtToken(prim, now);
    Json(statusCode, TokenBody(token, user.role, user.customer),
         Some(Cookie("token", token, now + env.jwtCookieExpireDays * DAY_MS, true, env.production)))
  }

  /** Logout replaces the session cookie by "none", expiring ten seconds from now. */
  function Logout(now: int): (r: Response)
    ensures r.Json? && r.status == 200 && r.body == NoData
    ensures r.cookie == Some(Cookie("token", "none", now + 10000, true, false))
  {
    Json(200, NoData, Some(Cookie("token", "none", now + LOGOUT_COOKIE_MS, true, false)))
  }

  /** Login: a missing email or password is refused before any lookup; an
      unknown email and a wrong password get the same 401 reply; otherwise
      the session token of the account with that email is sent. */
  method Login(db: UserStore, prim: Primitives, env: Settings, email: string, password: string, now: int)
    returns (r: Response)
    requires db.Valid()
    ensures email == "" || password == "" ==> r == ErrorResponse("Please provide an email and password", 400)
    ensures email != "" && password != "" ==>
      (r.Json? <==> exists a :: a in db.users && a.email == email && a.MatchPassword(prim, password))
    ensures email != "" && password != "" && !r.Json? ==> r == ErrorResponse("Invalid credentials", 401)
    ensures r.Json? ==> exists a :: a in db.users && a.email == email && r == SendTokenResponse(prim, env, a, 200, now)
  {
    if email == "" || password == "" {
      return ErrorResponse("Please provide an email and password", 400);
    }
    var user := db.FindOne(ByEmail(email));
    if user.None? {
      return ErrorResponse("Invalid credentials", 401);
    }
    var isMatch := user.value.MatchPassword(prim, password);
    if !isMatch {
      forall a | a in db.users && a.email == email
        ensures !a.MatchPassword(prim, password)
      {
        db.UniqueLookup(a);
      }
      return ErrorResponse("Invalid credentials", 401);
    }
    r := SendTokenResponse(prim, env, user.value, 200, now);
  }

  /** Register: create the account (validated, hashed, unique email) and send
      its session token. */
  method Register(db: UserStore, prim: Primitives, env: Settings, newId: string, username: string,
                  email: string, password: string, role: Option<string>, salt: string, now: int)
    returns (r: Response)
    requires db.Valid()
    requires db.FindOne(ById(newId)).None?
    modifies db
    ensures db.Valid()
    ensures var v := Violations(username, email, Some(password), role, prim.emailPattern);
      if v != {} then r == ValidationError(v) && db.users == old(db.users)
      else if old(db.FindOne(ByEmail(email))).Some? then r == DuplicateKey && db.users == old(db.users)
      else |db.users| == |old(db.users)| + 1 && db.users[..|old(db.users)|] == old(db.users)
           && var a := db.users[|db.users| - 1];
              && a.Doc() == Document(newId, username, email, RoleFor(role).value,
                                     prim.bcryptHash(password, salt), false, None, None, None,
                                     false, [], None, None)
              && r == SendTokenResponse(prim, env, a, 200, now)
  {
    var created := db.Create(prim, newId, username, email, password, role, salt, now);
    match created
    case Invalid(v) => r := ValidationError(v);
    case DuplicateEmail => r := DuplicateKey;
    case Ok(a) =>
      assert db.users[..|old(db.users)|] == old(db.users);
      r := SendTokenResponse(prim, env, a, 200, now);
  }

  /** Reset password: the candidate token is hashed and looked up among the
      accounts whose token has not yet expired.  No such account: 400 and
      nothing changes.  Otherwise the new password is assigned and both reset
      fields are cleared together, in one validated save.  The query does not
      select the password, so the assignment always counts as a modification
      and the hook hashes it.  A request without
      `password` is the empty string, which the validators refuse. */
  method ResetPassword(db: UserStore, prim: Primitives, env: Settings, resetToken: string, password: string,
                       salt: string, now: int) returns (r: Response)
    requires db.Valid()
    modifies db.Repr()
    ensures db.Valid() && db.users == old(db.users)
    ensures var target := old(db.FindOne(ByResetToken(prim.sha256Hex(resetToken), now)));
      && (r == ErrorResponse("Invalid token", 400) <==>
          forall a :: a in db.users ==>
            !old(ResetTokenAccepts(a.resetPasswordToken, a.resetPasswordExpire, prim.sha256Hex(resetToken), now)))
      && (forall a :: a in db.users && Some(a) != target ==> a.Doc() == old(a.Doc()))
      && (target.Some? ==>
            var u := target.value;
            var v := Violations(old(u.username), old(u.email), Some(password), Some(RoleName(old(u.role))),
                                prim.emailPattern);
            if v != {} then r == ValidationError(v) && u.Doc() == old(u.Doc())
            else
              && u.Doc() == Saved(old(u.Doc()).(password := password, passwordModified := true,
                                                resetPasswordToken := None, resetPasswordExpire := None),
                                  prim, salt, now)
              && u.password == prim.bcryptHash(password, salt)
              && u.resetPasswordToken.None? && u.resetPasswordExpire.None?
              && r == SendTokenResponse(prim, env, u, 200, now))
  {
    var resetPasswordToken := prim.sha256Hex(resetToken);
    var user := db.FindOne(ByResetToken(resetPasswordToken, now));
    if user.None? {
      forall a | a in db.users
        ensures !ResetTokenAccepts(a.resetPasswordToken, a.resetPasswordExpire, resetPasswordToken, now)
      {
        var i :| 0 <= i < |db.users| && db.users[i] == a;
        assert !Matches(db.users[i], ByResetToken(resetPasswordToken, now));
      }
      return ErrorResponse("Invalid token", 400);
    }
    var u := user.value;
    assert u in db.users && u.contrats in db.Repr();
    var v := Violations(u.username, u.email, Some(password), Some(RoleName(u.role)), prim.emailPattern);
    if v != {} {
      return ValidationError(v);
    }
    ClearResetToken(db, u);
    SetPasswordAndSave(db, u, prim, password, false, salt, now);
    r := SendTokenResponse(prim, env, u, 200, now);
  }

  /** Clears both reset fields of an account of the collection together. */
  method ClearResetToken(db: UserStore, u: Account)
    requires db.Valid() && u in db.users
    modifies u
    ensures db.Valid()
    ensures u.Doc() == old(u.Doc()).(resetPasswordToken := None, resetPasswordExpire := None)
    ensures forall a :: a in db.users && a != u ==> a.Doc() == old(a.Doc())
  {
    u.resetPasswordToken := None;
    u.resetPasswordExpire := None;
  }

  /** Assigns a new plaintext password to an account of the collection and
      saves it: the hook hashes it, and no other account changes. */
  method SetPasswordAndSave(db: UserStore, u: Account, prim: Primitives, password: string, loaded: bool,
                            salt: string, now: int)
    requires db.Valid() && u in db.users
    modifies u, u.contrats
    ensures db.Valid()
    ensures u.Doc() == Saved(old(u.Doc()).(password := password, passwordModified := !loaded || password != old(u.password)),
                             prim, salt, now)
    ensures u.password == if !loaded || password != old(u.password) then prim.bcryptHash(password, salt) else password
    ensures forall a :: a in db.users && a != u ==> a.Doc() == old(a.Doc())
  {
    u.SetPassword(password, loaded);
    db.SaveAccount(u, prim, salt, now);
  }

  /** Update details: the signed-in account's username and email, through an
      update whose validators check only the supplied paths and which does
      not run the save hook.  A field the request leaves out is not touched.
      The validators run before the lookup; the unique index on `email`
      refuses an email that another account holds. */
  method UpdateDetails(db: UserStore, prim: Primitives, requester: Option<string>,
                       username: Option<string>, email: Option<string>) returns (r: Response)
    requires db.Valid()
    modifies db.users
    ensures db.Valid() && db.users == old(db.users)
    ensures !r.Json? ==> forall a :: a in db.users ==> a.Doc() == old(a.Doc())
    ensures requester.None? || requester == Some("") ==> r == ErrorResponse("L'utilisateur n'est pas authentifié.", 401)
    ensures requester.Some? && requester.value != "" ==>
      var v := UpdateViolations(username, email, prim.emailPattern);
      var target := old(db.FindOne(ById(requester.value)));
      if v != {} then r == ValidationError(v)
      else if target.None? then r == ErrorResponse("L'utilisateur n'a pas été trouvé.", 404)
      else if email.Some? && exists a :: a in db.users && a != target.value && old(a.email) == email.value then
        r == DuplicateKey
      else
        var u := target.value;
        && r == Json(200, AccountData(u), None)
        && u.Doc() == old(u.Doc()).(username := if username.Some? then username.value else old(u.username),
                                    email := if email.Some? then email.value else old(u.email))
        && forall a :: a in db.users && a != u ==> a.Doc() == old(a.Doc())
  {
    if requester.None? || requester.value == "" {
      return ErrorResponse("L'utilisateur n'est pas authentifié.", 401);
    }
    var v := UpdateViolations(username, email, prim.emailPattern);
    if v != {} {
      return ValidationError(v);
    }
    var user := db.FindOne(ById(requester.value));
    if user.None? {
      return ErrorResponse("L'utilisateur n'a pas été trouvé.", 404);
    }
    var u := user.value;
    if email.Some? {
      var holder := db.FindOne(ByEmail(email.value));
      if holder.Some? && holder.value != u {
        return DuplicateKey;
      }
      forall a | a in db.users && a != u
        ensures a.email != email.value
      {
        if a.email == email.value {
          db.UniqueLookup(a);
        }
      }
    }
    UpdateFields(db, u, username, email);
    r := Json(200, AccountData(u), None);
  }

  /** The write of a validated update: the supplied fields of one account. */
  method UpdateFields(db: UserStore, u: Account, username: Option<string>, email: Option<string>)
    requires db.Valid() && u in db.users
    requires email.Some? ==> forall a :: a in db.users && a != u ==> a.email != email.value
    modifies u
    ensures db.Valid()
    ensures u.Doc() == old(u.Doc()).(username := if username.Some? then username.value else old(u.username),
                                     email := if email.Some? then email.value else old(u.email))
    ensures forall a :: a in db.users && a != u ==> a.Doc() == old(a.Doc())
  {
    if username.Some? {
      u.username := username.value;
    }
    if email.Some? {
      u.email := email.value;
    }
    forall i, j | 0 <= i < j < |db.users|
      ensures db.users[i].email != db.users[j].email
    {
      if db.users[i] != u && db.users[j] != u {
        assert old(db.users[i].email) != old(db.users[j].email);
      }
    }
  }

  /** Update password: the signed-in account is loaded with its hash; a wrong
      current password gets 401 and nothing changes; otherwise the new
      password is assigned and saved (validated, then hashed by the hook),
      and a new session token is sent.  Since the query selected the hash, a
      new password equal to the stored hash is no modification: the hook
      then leaves it as it is.  An unknown id makes the handler read
      a property of `null`; a request without `currentPassword` makes bcrypt
      reject its undefined argument.  A request without `newPassword` is the
      empty string, which the validators refuse as they refuse `undefined`. */
  method UpdatePassword(db: UserStore, prim: Primitives, env: Settings, requester: string,
                        currentPassword: Option<string>, newPassword: string, salt: string, now: int)
    returns (r: Response)
    requires db.Valid()
    modifies db.Repr()
    ensures db.Valid() && db.users == old(db.users)
    ensures var target := old(db.FindOne(ById(requester)));
      && (forall a :: a in db.users && Some(a) != target ==> a.Doc() == old(a.Doc()))
      && (target.None? ==> r == Unhandled)
      && (target.Some? ==>
            var u := target.value;
            if currentPassword.None? then r == Unhandled && u.Doc() == old(u.Doc())
            else if !old(u.MatchPassword(prim, currentPassword.value)) then
              r == ErrorResponse("Password is incorrect", 401) && u.Doc() == old(u.Doc())
            else
              var v := Violations(old(u.username), old(u.email), Some(newPassword), Some(RoleName(old(u.role))),
                                  prim.emailPattern);
              if v != {} then r == ValidationError(v) && u.Doc() == old(u.Doc())
              else
                && u.Doc() == Saved(old(u.Doc()).(password := newPassword,
                                                  passwordModified := newPassword != old(u.password)),
                                    prim, salt, now)
                && u.password == (if newPassword != old(u.password) then prim.bcryptHash(newPassword, salt)
                                  else old(u.password))
                && r == SendTokenResponse(prim, env, u, 200, now))
  {
    var user := db.FindOne(ById(requester));
    if user.None? {
      return Unhandled;
    }
    var u := user.value;
    assert u in db.users && u.contrats in db.Repr();
    if currentPassword.None? {
      return Unhandled;
    }
    var isMatch := u.MatchPassword(prim, currentPassword.value);
    if !isMatch {
      return ErrorResponse("Password is incorrect", 401);
    }
    var v := Violations(u.username, u.email, Some(newPassword), Some(RoleName(u.role)), prim.emailPattern);
    if v != {} {
      return ValidationError(v);
    }
    SetPasswordAndSave(db, u, prim, newPassword, true, salt, now);
    r := SendTokenResponse(prim, env, u, 200, now);
  }

  /** Forgot password: the account with the email gets a reset token (its
      digest stored, valid ten minutes) and is saved without validation; the
      raw token is mailed.  When the mail cannot be delivered both reset
      fields are cleared and saved again, and the reply is 500.  The password
      is not assigned here, so bcrypt's `salt` is never consulted. */
  method ForgotPassword(db: UserStore, prim: Primitives, email: string, randomHex: string, salt: string,
                        now: int, delivered: bool) returns (r: Response)
    requires db.Valid()
    modifies db.Repr()
    ensures db.Valid() && db.users == old(db.users)
    ensures var target := old(db.FindOne(ByEmail(email)));
      && (target.None? <==> r == ErrorResponse("There is no user with that email", 404))
      && (forall a :: a in db.users && Some(a) != target ==> a.Doc() == old(a.Doc()))
      && (target.Some? ==>
            var u := target.value;
            if delivered then
              && r == Json(200, TextData("Email sent"), None)
              && u.Doc() == Saved(old(u.Doc()).(resetPasswordToken := Some(prim.sha256Hex(randomHex)),
                                                resetPasswordExpire := Some(now + RESET_TOKEN_LIFETIME_MS)),
                                  prim, salt, now)
              && ResetTokenAccepts(u.resetPasswordToken, u.resetPasswordExpire, prim.sha256Hex(randomHex), now)
            else
              && r == ErrorResponse("Email could not be sent", 500)
              && u.Doc() == Saved(old(u.Doc()).(resetPasswordToken := None, resetPasswordExpire := None),
                                  prim, salt, now)
              && u.resetPasswordToken.None? && u.resetPasswordExpire.None?)
  {
    var user := db.FindOne(ByEmail(email));
    if user.None? {
      return ErrorResponse("There is no user with that email", 404);
    }
    var u := user.value;
    assert u in db.users && u.contrats in db.Repr();
    ghost var before := u.Doc();
    var resetToken := IssueResetToken(db, u, prim, randomHex, salt, now);
    if delivered {
      return Json(200, TextData("Email sent"), None);
    }
    ClearResetToken(db, u);
    db.SaveAccount(u, prim, salt, now);
    RollbackRestores(before, prim, Some(prim.sha256Hex(randomHex)), Some(now + RESET_TOKEN_LIFETIME_MS),
                     salt, salt, now);
    r := ErrorResponse("Email could not be sent", 500);
  }

  /** Issues a reset token for an account of the collection and saves it. */
  method IssueResetToken(db: UserStore, u: Account, prim: Primitives, randomHex: string, salt: string, now: int)
    returns (resetToken: string)
    requires db.Valid() && u in db.users
    modifies u, u.contrats
    ensures db.Valid() && resetToken == randomHex
    ensures u.Doc() == Saved(old(u.Doc()).(resetPasswordToken := Some(prim.sha256Hex(randomHex)),
                                           resetPasswordExpire := Some(now + RESET_TOKEN_LIFETIME_MS)),
                             prim, salt, now)
    ensures forall a :: a in db.users && a != u ==> a.Doc() == old(a.Doc())
  {
    resetToken := u.GetResetPasswordToken(prim, randomHex, now);
    db.SaveAccount(u, prim, salt, now);
  }
}

=== FILE: employment_contracts.dfy ===
/**
  Employment contracts attached to an account, as the save hook of the user
  model sees them once populated: a start date and an optional end date, both
  in milliseconds since the epoch.

  The hook sorts the contracts by start date with the platform's stable sort,
  takes the earliest start as the account's entry date, and scans them for one
  that is currently running.  This module gives the specification of each of
  those steps as functions, proves what they promise, and implements the two
  in-place steps (the sort and the scan with its early exit) as methods over
  the array the hook works on.
*/
module EmploymentContracts {
  import opened Wrappers

  datatype Contract = Contract(dateDebut: int, dateFin: Option<int>)

  /** A contract is running at `now` when it has started and has not ended;
      a contract without an end date never ends. */
  predicate IsActive(c: Contract, now: int) {
    c.dateDebut <= now && (c.dateFin.None? || c.dateFin.value >= now)
  }

  /** Some contract of `s` is running at `now`. */
  predicate AnyActive(s: seq<Contract>, now: int) {
    exists i :: 0 <= i < |s| && IsActive(s[i], now)
  }

  /** Ascending by start date. */
  predicate Sorted(s: seq<Contract>) {
    forall i, j :: 0 <= i < j < |s| ==> s[i].dateDebut <= s[j].dateDebut
  }

  /** The contracts of `s` that start at `k`, in their order in `s`.  A sort is
      stable exactly when it keeps every such run as it was. */
  function StartRun(s: seq<Contract>, k: int): seq<Contract> {
    if s == [] then []
    else StartRun(s[..|s| - 1], k) + (if s[|s| - 1].dateDebut == k then [s[|s| - 1]] else [])
  }

  /** The earliest start date of a non-empty list, by a plain minimum. */
  function EarliestStart(s: seq<Contract>): (m: int)
    requires |s| > 0
    ensures forall i :: 0 <= i < |s| ==> m <= s[i].dateDebut
    ensures exists i :: 0 <= i < |s| && s[i].dateDebut == m
  {
    if |s| == 1 then s[0].dateDebut
    else
      var rest := EarliestStart(s[1..]);
      assert forall i :: 1 <= i < |s| ==> s[i] == s[1..][i - 1];
      if s[0].dateDebut <= rest then s[0].dateDebut else rest
  }

  /** Inserts `c` into `t` after every element that starts no later than `c`
      (so after its equals: this is what keeps the sort stable). */
  function Insert(t: seq<Contract>, c: Contract): seq<Contract> {
    if t == [] || t[|t| - 1].dateDebut <= c.dateDebut then
      t + [c]
    else
      Insert(t[..|t| - 1], c) + [t[|t| - 1]]
  }

  lemma {:induction false} InsertPermutes(t: seq<Contract>, c: Contract)
    ensures |Insert(t, c)| == |t| + 1
    ensures multiset(Insert(t, c)) == multiset(t) + multiset{c}
    decreases |t|
  {
    if t != [] && t[|t| - 1].dateDebut > c.dateDebut {
      var init := t[..|t| - 1];
      assert t == init + [t[|t| - 1]];
      InsertPermutes(init, c);
    }
  }

  lemma {:induction false} InsertSorted(t: seq<Contract>, c: Contract)
    requires Sorted(t)
    ensures Sorted(Insert(t, c))
    decreases |t|
  {
    if t != [] && t[|t| - 1].dateDebut > c.dateDebut {
      var init, last := t[..|t| - 1], t[|t| - 1];
      assert t == init + [last];
      InsertSorted(init, c);
      InsertPermutes(init, c);
      var r' := Insert(init, c);
      forall i | 0 <= i < |r'|
        ensures r'[i].dateDebut <= last.dateDebut
      {
        assert r'[i] in multiset(r');
        if r'[i] != c {
          assert r'[i] in multiset(init);
          var j :| 0 <= j < |init| && init[j] == r'[i];
          assert t[j] == init[j];
        }
      }
      assert Insert(t, c) == r' + [last];
    }
  }

  /** The order the hook leaves the contracts in: ascending by start date,
      contracts with equal starts in their original order. */
  function SortByStart(s: seq<Contract>): seq<Contract> {
    if s == [] then [] else Insert(SortByStart(s[..|s| - 1]), s[|s| - 1])
  }

  lemma {:induction false} StartRunAppend(a: seq<Contract>, b: seq<Contract>, k: int)
    ensures StartRun(a + b, k) == StartRun(a, k) + StartRun(b, k)
    decreases |b|
  {
    if b == [] {
      assert a + b == a;
    } else {
      var b' := b[..|b| - 1];
      assert (a + b)[..|a + b| - 1] == a + b';
      StartRunAppend(a, b', k);
    }
  }

  lemma {:induction false} InsertKeepsRuns(t: seq<Contract>, c: Contract, k: int)
    ensures StartRun(Insert(t, c), k) == StartRun(t, k) + StartRun([c], k)
    decreases |t|
  {
    assert StartRun([c], k) == (if c.dateDebut == k then [c] else []) by {
      assert [c][..0] == [];
    }
    if t == [] || t[|t| - 1].dateDebut <= c.dateDebut {
      StartRunAppend(t, [c], k);
    } else {
      var init, last := t[..|t| - 1], t[|t| - 1];
      assert t == init + [last];
      InsertKeepsRuns(init, c, k);
      StartRunAppend(Insert(init, c), [last], k);
      StartRunAppend(init, [last], k);
      assert StartRun([last], k) == (if last.dateDebut == k then [last] else []) by {
        assert [last][..0] == [];
      }
    }
  }

  /** The result is a permutation of the input. */
  lemma {:induction false} SortByStartPermutes(s: seq<Contract>)
    ensures multiset(SortByStart(s)) == multiset(s)
    ensures |SortByStart(s)| == |s|
  {
    if s != [] {
      var init := s[..|s| - 1];
      assert s == init + [s[|s| - 1]];
      SortByStartPermutes(init);
      InsertPermutes(SortByStart(init), s[|s| - 1]);
    }
  }

  /** The result is ascending by start date. */
  lemma {:induction false} SortByStartSorted(s: seq<Contract>)
    ensures Sorted(SortByStart(s))
  {
    if s != [] {
      SortByStartSorted(s[..|s| - 1]);
      InsertSorted(SortByStart(s[..|s| - 1]), s[|s| - 1]);
    }
  }

  /** The sort is stable: contracts with equal start dates keep their relative order. */
  lemma {:induction false} SortByStartStable(s: seq<Contract>, k: int)
    ensures StartRun(SortByStart(s), k) == StartRun(s, k)
  {
    if s != [] {
      var init, last := s[..|s| - 1], s[|s| - 1];
      SortByStartStable(init, k);
      InsertKeepsRuns(SortByStart(init), last, k);
      assert StartRun([last], k) == (if last.dateDebut == k then [last] else []) by {
        assert [last][..0] == [];
      }
    }
  }

  lemma {:induction false} StartRunHasMember(s: seq<Contract>, i: int)
    requires 0 <= i < |s|
    ensures s[i] in StartRun(s, s[i].dateDebut)
    decreases |s|
  {
    var init := s[..|s| - 1];
    StartRunAppend(init, [s[|s| - 1]], s[i].dateDebut);
    if i < |s| - 1 {
      StartRunHasMember(init, i);
    }
  }

  lemma {:induction false} StartRunMembers(s: seq<Contract>, k: int)
    ensures forall x :: x in StartRun(s, k) ==> x in s && x.dateDebut == k
    decreases |s|
  {
    if s != [] {
      var init := s[..|s| - 1];
      StartRunMembers(init, k);
      assert s == init + [s[|s| - 1]];
    }
  }

  lemma MemberStartsNoLaterThanLast(s: seq<Contract>, x: Contract)
    requires Sorted(s) && x in s
    ensures x.dateDebut <= s[|s| - 1].dateDebut
  {
    var i :| 0 <= i < |s| && s[i] == x;
  }

  /** Two ascending lists with the same runs end on contracts with the same start. */
  lemma LastStartsAgree(t: seq<Contract>, u: seq<Contract>)
    requires Sorted(t) && Sorted(u) && t != [] && u != []
    requires forall k :: StartRun(t, k) == StartRun(u, k)
    ensures t[|t| - 1].dateDebut == u[|u| - 1].dateDebut
  {
    var tl, ul := t[|t| - 1], u[|u| - 1];
    StartRunHasMember(t, |t| - 1);
    StartRunMembers(u, tl.dateDebut);
    assert StartRun(t, tl.dateDebut) == StartRun(u, tl.dateDebut);
    MemberStartsNoLaterThanLast(u, tl);
    StartRunHasMember(u, |u| - 1);
    StartRunMembers(t, ul.dateDebut);
    assert StartRun(t, ul.dateDebut) == StartRun(u, ul.dateDebut);
    MemberStartsNoLaterThanLast(t, ul);
  }

  /** Two ascending lists with the same run of contracts at every start date
      are equal.  So the sort the hook uses, whatever its algorithm, gives
      exactly SortByStart as long as it is stable. */
  lemma {:induction false} SortedRunsDetermine(t: seq<Contract>, u: seq<Contract>)
    requires Sorted(t) && Sorted(u)
    requires forall k :: StartRun(t, k) == StartRun(u, k)
    ensures t == u
    decreases |t| + |u|
  {
    if t == [] || u == [] {
      if t != [] {
        StartRunHasMember(t, 0);
      } else if u != [] {
        StartRunHasMember(u, 0);
      }
    } else {
      var tl, ul := t[|t| - 1], u[|u| - 1];
      var t', u' := t[..|t| - 1], u[..|u| - 1];
      LastStartsAgree(t, u);
      var k0 := tl.dateDebut;
      assert tl == ul by {
        var r := StartRun(t, k0);
        assert r == StartRun(t', k0) + [tl];
        assert r[|r| - 1] == tl;
        assert r == StartRun(u, k0);
        assert r == StartRun(u', k0) + [ul];
        assert r[|r| - 1] == ul;
      }
      forall k ensures StartRun(t', k) == StartRun(u', k) {
        var tail := if k == k0 then [tl] else [];
        assert StartRun(t, k) == StartRun(t', k) + tail;
        assert StartRun(u, k) == StartRun(u', k) + tail;
        assert StartRun(t', k) == StartRun(t, k)[..|StartRun(t, k)| - |tail|];
        assert StartRun(u', k) == StartRun(u, k)[..|StartRun(u, k)| - |tail|];
      }
      SortedRunsDetermine(t', u');
      assert t == t' + [tl] && u == u' + [ul];
    }
  }

  /** `SortByStart` is the one stable sort: any ordering of `s` that is
      sorted by start date and keeps every run of equal start dates in its
      original order is `SortByStart(s)`. */
  lemma StableSortIsUnique(s: seq<Contract>, t: seq<Contract>)
    requires Sorted(t)
    requires forall k :: StartRun(t, k) == StartRun(s, k)
    ensures t == SortByStart(s)
  {
    SortByStartSorted(s);
    forall k ensures StartRun(SortByStart(s), k) == StartRun(s, k) {
      SortByStartStable(s, k);
    }
    SortedRunsDetermine(t, SortByStart(s));
  }

  /** Sorting an already sorted list changes nothing. */
  lemma SortByStartFixesSorted(s: seq<Contract>)
    requires Sorted(s)
    ensures SortByStart(s) == s
  {
    SortByStartSorted(s);
    forall k ensures StartRun(SortByStart(s), k) == StartRun(s, k) {
      SortByStartStable(s, k);
    }
    SortedRunsDetermine(SortByStart(s), s);
  }

  /** After the sort, the first contract carries the earliest start date. */
  lemma SortedHeadIsEarliest(s: seq<Contract>)
    requires |s| > 0
    ensures |SortByStart(s)| == |s|
    ensures SortByStart(s)[0].dateDebut == EarliestStart(s)
  {
    var r := SortByStart(s);
    SortByStartPermutes(s);
    SortByStartSorted(s);
    var m := EarliestStart(s);
    var i :| 0 <= i < |s| && s[i].dateDebut == m;
    assert s[i] in multiset(r);
    var j :| 0 <= j < |r| && r[j] == s[i];
    assert r[0] in multiset(s);
    var h :| 0 <= h < |s| && s[h] == r[0];
  }

  /** Whether a contract is running does not depend on the order of the list:
      the early exit of the scan only decides when it stops. */
  lemma AnyActiveIgnoresOrder(s: seq<Contract>, t: seq<Contract>, now: int)
    requires multiset(s) == multiset(t)
    ensures AnyActive(s, now) == AnyActive(t, now)
  {
    if AnyActive(s, now) {
      var i :| 0 <= i < |s| && IsActive(s[i], now);
      assert s[i] in multiset(t);
      var j :| 0 <= j < |t| && t[j] == s[i];
    }
    if AnyActive(t, now) {
      var j :| 0 <= j < |t| && IsActive(t[j], now);
      assert t[j] in multiset(s);
      var i :| 0 <= i < |s| && s[i] == t[j];
    }
  }

  /** One step of the shifting loop: `x` moves left past a later-starting contract. */
  lemma InsertShift(t: seq<Contract>, j: int, x: Contract)
    requires 0 < j <= |t| && t[j - 1].dateDebut > x.dateDebut
    ensures Insert(t[..j], x) + t[j..] == Insert(t[..j - 1], x) + t[j - 1..]
  {
    assert t[..j][..j - 1] == t[..j - 1];
    assert t[j - 1..] == [t[j - 1]] + t[j..];
  }

  /** The shifting loop stops where `x` belongs. */
  lemma InsertStop(t: seq<Contract>, j: int, x: Contract)
    requires 0 <= j <= |t| && (j == 0 || t[j - 1].dateDebut <= x.dateDebut)
    ensures Insert(t[..j], x) == t[..j] + [x]
  {
  }

  /** The array prefix after the shifting loop: `t` with `x` placed at `j`. */
  lemma PlacedAt(t: seq<Contract>, j: int, x: Contract, b: seq<Contract>)
    requires 0 <= j <= |t| && |b| == |t| + 1
    requires forall k :: 0 <= k < j ==> b[k] == t[k]
    requires b[j] == x
    requires forall k :: j < k <= |t| ==> b[k] == t[k - 1]
    ensures b == t[..j] + [x] + t[j..]
  {
    var c := t[..j] + [x] + t[j..];
    forall k | 0 <= k < |b|
      ensures b[k] == c[k]
    {
      if k > j {
        assert c[k] == t[j..][k - j - 1];
      }
    }
  }

  lemma SortByStartExtend(s: seq<Contract>, i: int)
    requires 0 <= i < |s|
    ensures SortByStart(s[..i + 1]) == Insert(SortByStart(s[..i]), s[i])
  {
    assert s[..i + 1][..i] == s[..i];
  }

  /** Moves `a[i]` left into the ascending prefix `a[..i]`, past every
      contract that starts strictly later. */
  method InsertInPlace(a: array<Contract>, i: int)
    requires 0 <= i < a.Length
    modifies a
    ensures a[..i + 1] == Insert(old(a[..i]), old(a[i]))
    ensures a[i + 1..] == old(a[i + 1..])
  {
    ghost var t := a[..i];
    var x := a[i];
    var j := i;
    assert t[..j] == t && t[j..] == [];
    while j > 0 && a[j - 1].dateDebut > x.dateDebut
      invariant 0 <= j <= i
      invariant forall k :: 0 <= k < j ==> a[k] == t[k]
      invariant forall k :: j < k <= i ==> a[k] == t[k - 1]
      invariant forall k :: i < k < a.Length ==> a[k] == old(a[k])
      invariant Insert(t, x) == Insert(t[..j], x) + t[j..]
    {
      assert a[j - 1] == t[j - 1];
      InsertShift(t, j, x);
      a[j] := a[j - 1];
      j := j - 1;
    }
    InsertStop(t, j, x);
    a[j] := x;
    PlacedAt(t, j, x, a[..i + 1]);
  }

  /** What the hook reads off the sorted list is what the original list says. */
  lemma SortKeepsEarliestAndActive(s: seq<Contract>, now: int)
    ensures |SortByStart(s)| == |s|
    ensures |s| > 0 ==> SortByStart(s)[0].dateDebut == EarliestStart(s)
    ensures AnyActive(SortByStart(s), now) == AnyActive(s, now)
  {
    SortByStartPermutes(s);
    if |s| > 0 {
      SortedHeadIsEarliest(s);
    }
    AnyActiveIgnoresOrder(SortByStart(s), s, now);
  }

  /** Sorts the array in place, ascending by start date and stably. */
  method SortInPlace(a: array<Contract>)
    modifies a
    ensures a[..] == SortByStart(old(a[..]))
  {
    ghost var s := a[..];
    var i := 0;
    while i < a.Length
      invariant 0 <= i <= a.Length
      invariant a[..i] == SortByStart(s[..i])
      invariant a[i..] == s[i..]
    {
      InsertInPlace(a, i);
      SortByStartExtend(s, i);
      i := i + 1;
    }
    assert a[..] == a[..a.Length] && s == s[..a.Length];
  }

  /** Scans the contracts in order and stops at the first running one. */
  method FindActive(a: array<Contract>, now: int) returns (found: bool)
    ensures found == AnyActive(a[..], now)
  {
    found := false;
    for i := 0 to a.Length
      invariant !found
      invariant forall j :: 0 <= j < i ==> !IsActive(a[j], now)
    {
      if IsActive(a[i], now) {
        found := true;
        break;
      }
    }
  }
}

=== FILE: environment.dfy ===
/**
  What the backend takes from its surroundings: the library primitives it
  calls (password hashing, SHA-256, token signing, the e-mail pattern of the
  schema) and the settings it reads from the process environment.

  The primitives are left uninterpreted: they are function-valued fields, so
  every statement proved here holds whatever the libraries compute.  Where a
  property needs something of them (SHA-256 not colliding on two candidate
  tokens, bcrypt verifying what it hashed), the lemma states that as a
  hypothesis.
*/
module Environment {

  datatype Primitives = Primitives(
    /** bcrypt: (plaintext, salt) to the stored hash */
    bcryptHash: (string, string) -> string,
    /** bcrypt's verification: (candidate plaintext, stored hash) */
    bcryptCompare: (string, string) -> bool,
    /** SHA-256 of a string, as lower-case hex */
    sha256Hex: string -> string,
    /** a signed session token for an account id, issued at an instant in
        milliseconds (the library stamps the issue time and the expiry
        JWT_EXPIRE later; the secret is the library's) */
    signJwt: (string, int) -> string,
    /** the e-mail pattern of the user schema */
    emailPattern: string -> bool)

  datatype Settings = Settings(
    /** JWT_COOKIE_EXPIRE: lifetime of the session cookie, in days */
    jwtCookieExpireDays: int,
    /** NODE_ENV is "production": the session cookie is marked secure */
    production: bool,
    /** MAX_FILE_UPLOAD as written in the environment (it appears in a message) */
    maxFileUploadText: string,
    /** the number the size comparison coerces MAX_FILE_UPLOAD to */
    maxFileUpload: int)

  /** Milliseconds in a day. */
  const DAY_MS := 24 * 60 * 60 * 1000

  /** bcrypt verifies every plaintext against its own hash, whatever the salt. */
  ghost predicate BcryptVerifiesOwnHash(prim: Primitives) {
    forall p, salt :: prim.bcryptCompare(p, prim.bcryptHash(p, salt))
  }

  /** bcrypt refuses a plaintext against the hash of another one whose key
      differs.  Plaintexts with the same key (see `BcryptKey`) match each
      other's hash. */
  ghost predicate BcryptRefusesOthers(prim: Primitives) {
    forall p, q, salt :: BcryptKey(p) != BcryptKey(q) ==> !prim.bcryptCompare(q, prim.bcryptHash(p, salt))
  }

  /** The UTF-8 encoding of one character. */
  function Utf8Char(c: char): seq<int> {
    var n := c as int;
    if n < 0x80 then [n]
    else if n < 0x800 then [0xC0 + n / 0x40, 0x80 + n % 0x40]
    else if n < 0x1_0000 then [0xE0 + n / 0x1000, 0x80 + (n / 0x40) % 0x40, 0x80 + n % 0x40]
    else [0xF0 + n / 0x4_0000, 0x80 + (n / 0x1000) % 0x40, 0x80 + (n / 0x40) % 0x40, 0x80 + n % 0x40]
  }

  /** The UTF-8 encoding of a string. */
  function Utf8(s: string): seq<int> {
    if s == [] then [] else Utf8Char(s[0]) + Utf8(s[1..])
  }

  /** The first `n` bytes of `b` read round and round. */
  function Cycle(b: seq<int>, n: nat): (r: seq<int>)
    requires |b| > 0
    ensures |r| == n
    decreases n
  {
    if n <= |b| then b[..n] else b + Cycle(b, n - |b|)
  }

  /** Reading `b + b` round and round reads `b` round and round. */
  lemma {:induction false} CycleDouble(b: seq<int>, n: nat)
    requires |b| > 0
    ensures Cycle(b + b, n) == Cycle(b, n)
    decreases n
  {
    if n <= |b| {
      assert (b + b)[..n] == b[..n];
    } else if n <= 2 * |b| {
      assert Cycle(b, n - |b|) == b[..n - |b|];
      assert (b + b)[..n] == b + b[..n - |b|];
    } else {
      CycleDouble(b, n - 2 * |b|);
      assert Cycle(b, n - |b|) == b + Cycle(b, n - 2 * |b|);
    }
  }

  /** The key bcrypt derives from a plaintext: its UTF-8 bytes with a NUL
      terminator, read round and round until 72 bytes are taken. */
  function BcryptKey(p: string): (key: seq<int>)
    ensures |key| == 72
  {
    Cycle(Utf8(p) + [0], 72)
  }

  /** A plaintext of 72 bytes or more keys on its first 72 bytes alone:
      whatever follows them is ignored. */
  lemma BcryptKeyTruncates(p: string)
    requires |Utf8(p)| >= 72
    ensures BcryptKey(p) == Utf8(p)[..72]
  {
  }

  /** A plaintext and the same plaintext repeated after a NUL have the same
      key, so they match each other's hash. */
  lemma BcryptKeyRepeats(p: string)
    ensures BcryptKey(p + "\0" + p) == BcryptKey(p)
  {
    var b := Utf8(p) + [0];
    Utf8Append(p, "\0");
    Utf8Append(p + "\0", p);
    assert Utf8("\0") == [0];
    assert Utf8(p + "\0" + p) + [0] == b + b;
    CycleDouble(b, 72);
  }

  /** UTF-8 encodes a concatenation piece by piece. */
  lemma {:induction false} Utf8Append(s: string, t: string)
    ensures Utf8(s + t) == Utf8(s) + Utf8(t)
    decreases |s|
  {
    if s == [] {
      assert s + t == t;
    } else {
      assert (s + t)[1..] == s[1..] + t;
      Utf8Append(s[1..], t);
    }
  }
}

=== FILE: http.dfy ===
/**
  What a handler hands back to the HTTP layer: a JSON reply (with the cookie
  it sets, if any), an `ErrorResponse` passed to the error middleware with its
  message and status, or an error thrown by the model layer, whose status the
  error middleware chooses (that middleware is not part of this model).
*/
module Http {
  import opened Wrappers
  import opened UserModel

  datatype Cookie = Cookie(name: string, value: string, expires: int, httpOnly: bool, secure: bool)

  /** The payload next to `success: true`. */
  datatype Body =
    | TokenBody(token: string, role: Role, customer: Option<string>)
    | AccountData(account: Account)
    | TextData(text: string)
    | NoData

  datatype Response =
    | Json(status: int, body: Body, cookie: Option<Cookie>)
    | ErrorResponse(message: string, status: int)
      /** a ValidationError from a save or a validated update, naming the refused paths */
    | ValidationError(fields: set<Field>)
      /** the unique index on `email` refused a write */
    | DuplicateKey
      /** a TypeError thrown inside the handler (a property read on `null` or `undefined`) */
    | Unhandled
}

=== FILE: storage.dfy ===
/**
  The user collection as the handlers use it: accounts in their natural
  (insertion) order, a `findOne` that returns the first account matching a
  filter, and `create`, which validates, runs the save hook and inserts.

  The collection's invariant is the unique index on `email`, the uniqueness
  of ids, that no two accounts share a contract list, and that what is stored
  is saved (no password is waiting to be hashed).
*/
module Storage {
  import opened Wrappers
  import opened Environment
  import opened EmploymentContracts
  import opened UserModel

  /** The filters the handlers pass to `findOne` / `findById`. */
  datatype Query =
    | ById(id: string)
    | ByEmail(email: string)
      /** `{ resetPasswordToken: digest, resetPasswordExpire: { $gt: now } }` */
    | ByResetToken(digest: string, now: int)

  predicate Matches(a: Account, q: Query)
    reads a
  {
    match q
    case ById(id) => a.id == id
    case ByEmail(email) => a.email == email
    case ByResetToken(digest, now) => ResetTokenAccepts(a.resetPasswordToken, a.resetPasswordExpire, digest, now)
  }

  /** The first account of `s` that matches `q`. */
  function FirstMatch(s: seq<Account>, q: Query): (r: Option<Account>)
    reads s
    ensures r.None? <==> forall i :: 0 <= i < |s| ==> !Matches(s[i], q)
    ensures r.Some? ==> exists i :: 0 <= i < |s| && s[i] == r.value && Matches(s[i], q)
                                    && forall j :: 0 <= j < i ==> !Matches(s[j], q)
  {
    if s == [] then None
    else if Matches(s[0], q) then Some(s[0])
    else
      var r := FirstMatch(s[1..], q);
      assert forall i :: 1 <= i < |s| ==> s[i] == s[1..][i - 1];
      if r.Some? then
        var i :| 0 <= i < |s[1..]| && s[1..][i] == r.value && Matches(s[1..][i], q)
                  && forall j :: 0 <= j < i ==> !Matches(s[1..][j], q);
        assert s[i + 1] == r.value;
        r
      else r
  }

  class UserStore {
    var users: seq<Account>

    /** An empty collection. */
    constructor ()
      ensures users == [] && Valid()
    {
      users := [];
    }

    ghost predicate Valid()
      reads this, users
    {
      Unique() && forall i :: 0 <= i < |users| ==> !users[i].passwordModified
    }

    /** No two accounts share an id, an email or a contract list. */
    ghost predicate Unique()
      reads this, users
    {
      forall i, j :: 0 <= i < j < |users| ==>
        users[i].id != users[j].id && users[i].email != users[j].email
        && users[i].contrats != users[j].contrats
    }

    /** Valid, except that `u` may hold fields assigned since it was loaded. */
    ghost predicate ValidExcept(u: Account)
      reads this, users
    {
      Unique() && forall i :: 0 <= i < |users| && users[i] != u ==> !users[i].passwordModified
    }

    /** The objects a handler may update: the accounts and their contract lists. */
    ghost function Repr(): set<object>
      reads this, users
    {
      (set a | a in users :: a as object) + (set a | a in users :: a.contrats as object)
    }

    function FindOne(q: Query): Option<Account>
      reads this, users
    {
      FirstMatch(users, q)
    }

    /** Ids and emails are unique: a lookup by either finds the one account that has it. */
    lemma UniqueLookup(a: Account)
      requires Valid() && a in users
      ensures FindOne(ById(a.id)) == Some(a)
      ensures FindOne(ByEmail(a.email)) == Some(a)
    {
      var k :| 0 <= k < |users| && users[k] == a;
      var r := FindOne(ById(a.id));
      var i :| 0 <= i < |users| && users[i] == r.value && Matches(users[i], ById(a.id));
      assert !(i < k || k < i);
      var r' := FindOne(ByEmail(a.email));
      var i' :| 0 <= i' < |users| && users[i'] == r'.value && Matches(users[i'], ByEmail(a.email));
      assert !(i' < k || k < i');
    }

    /** `user.save()` for an account of the collection, after the handler
        assigned some of its fields: the hook runs and the document is stored. */
    method SaveAccount(u: Account, prim: Primitives, salt: string, now: int)
      requires u in users && ValidExcept(u)
      modifies u, u.contrats
      ensures Valid()
      ensures u.Doc() == Saved(old(u.Doc()), prim, salt, now)
      ensures forall a :: a in users && a != u ==> a.Doc() == old(a.Doc())
    {
      u.Save(prim, salt, now);
      forall a | a in users && a != u
        ensures a.Doc() == old(a.Doc())
      {
        var i :| 0 <= i < |users| && users[i] == a;
        var k :| 0 <= k < |users| && users[k] == u;
        assert a.contrats != u.contrats by {
          if i < k {} else {}
        }
      }
    }

    /** `User.create`: the schema's validators run first, then the save hook,
        then the insert, which the unique index on `email` refuses when the
        email is taken.  `newId` is the id the driver generates for the new
        document; `salt` is bcrypt's fresh salt.  Nothing is stored unless
        every step succeeds. */
    method Create(prim: Primitives, newId: string, username: string, email: string, password: string,
                  role: Option<string>, salt: string, now: int) returns (r: Created)
      requires Valid()
      requires FindOne(ById(newId)).None?
      modifies this
      ensures Valid()
      ensures var v := Violations(username, email, Some(password), role, prim.emailPattern);
        if v != {} then r == Invalid(v) && users == old(users)
        else if old(FindOne(ByEmail(email))).Some? then r == DuplicateEmail && users == old(users)
        else
          && r.Ok? && fresh(r.account) && fresh(r.account.contrats)
          && users == old(users) + [r.account]
          && r.account.Doc() == Document(newId, username, email, RoleFor(role).value,
                                         prim.bcryptHash(password, salt), false, None, None, None,
                                         false, [], None, None)
    {
      var v := Violations(username, email, Some(password), role, prim.emailPattern);
      if v != {} {
        return Invalid(v);
      }
      var a := new Account(newId, username, email, password, RoleFor(role).value);
      a.Save(prim, salt, now);
      assert AnyActive([], now) == false;
      if FindOne(ByEmail(email)).Some? {
        return DuplicateEmail;
      }
      users := users + [a];
      r := Ok(a);
      forall i, j | 0 <= i < j < |users|
        ensures users[i].id != users[j].id && users[i].email != users[j].email
      {
        if j == |users| - 1 {
          assert !Matches(old(users)[i], ById(newId));
          assert !Matches(old(users)[i], ByEmail(email));
        }
      }
    }
  }

  /** The outcome of `User.create`. */
  datatype Created =
    | Ok(account: Account)
      /** a ValidationError naming the refused paths */
    | Invalid(fields: set<Field>)
      /** the unique index on `email` refused the insert */
    | DuplicateEmail
}

=== FILE: user_model.dfy ===
/**
  The account record of the user model: its schema constraints, its save
  hook (password hashing, contract ordering, entry date, active flag) and its
  instance methods (password check, session token, reset token).

  A persisted account is an object whose fields the handlers and the hook
  update in place.  `passwordModified` is what the hook asks with
  `isModified('password')`: since the document was loaded, its password was
  assigned a value other than the loaded one, or was assigned while the
  query had not loaded it at all.  Saving clears it.
*/
module UserModel {
  import opened Wrappers
  import opened EmploymentContracts
  import opened Environment

  datatype Role = SuperAdmin | Admin | User

  /** The name the schema's role enumeration uses. */
  function RoleName(r: Role): string {
    match r
    case SuperAdmin => "superAdmin"
    case Admin => "admin"
    case User => "user"
  }

  /** The role stored for the value a request supplies: the schema default
      `user` when it supplies none, nothing when the value is outside the
      enumeration (the save is then refused). */
  function RoleFor(input: Option<string>): (r: Option<Role>)
    ensures input.None? ==> r == Some(User)
    ensures input.Some? ==> (r.Some? <==> input.value in {"superAdmin", "admin", "user"})
    ensures r.Some? && input.Some? ==> RoleName(r.value) == input.value
  {
    match input
    case None => Some(User)
    case Some(s) =>
      if s == "superAdmin" then Some(SuperAdmin)
      else if s == "admin" then Some(Admin)
      else if s == "user" then Some(User)
      else None
  }

  /** Every role is accepted under its own name, and two roles never share a name. */
  lemma RoleNameRoundTrip(r: Role, r': Role)
    ensures RoleFor(Some(RoleName(r))) == Some(r)
    ensures RoleName(r) == RoleName(r') ==> r == r'
  {
  }

  const PASSWORD_MIN_LENGTH := 6

  /** The length of a string as JavaScript counts it (`.length`): UTF-16
      code units, two for a character outside the Basic Multilingual Plane. */
  function Utf16Length(s: string): (n: nat)
    ensures |s| <= n <= 2 * |s|
    ensures (forall i :: 0 <= i < |s| ==> s[i] as int < 0x1_0000) ==> n == |s|
  {
    if s == [] then 0
    else (if s[0] as int < 0x1_0000 then 1 else 2) + Utf16Length(s[1..])
  }

  /** JavaScript's length adds up over concatenation, one code unit for a
      character of the Basic Multilingual Plane and two for any other. */
  lemma {:induction false} Utf16LengthAppend(s: string, t: string)
    ensures Utf16Length(s + t) == Utf16Length(s) + Utf16Length(t)
    decreases |s|
  {
    if s != [] {
      assert (s + t)[1..] == s[1..] + t;
      Utf16LengthAppend(s[1..], t);
    } else {
      assert s + t == t;
    }
  }

  /** A single character is one code unit inside the Basic Multilingual
      Plane and a surrogate pair, two units, outside it. */
  lemma Utf16LengthChar(c: char)
    ensures Utf16Length([c]) == if c as int < 0x1_0000 then 1 else 2
  {
  }

  /** Three characters outside the Basic Multilingual Plane are six code
      units long, so they meet the password minimum. */
  lemma AstralPasswordLength()
    ensures Utf16Length("\U{1F600}\U{1F600}\U{1F600}") == PASSWORD_MIN_LENGTH
  {
    var e: char := '\U{1F600}';
    Utf16LengthChar(e);
    Utf16LengthAppend([e], [e]);
    Utf16LengthAppend([e, e], [e]);
    assert [e] + [e] == [e, e] && [e, e] + [e] == "\U{1F600}\U{1F600}\U{1F600}";
  }

  /** The paths of the schema whose validators can refuse a save. */
  datatype Field = UsernameField | EmailField | PasswordField | RoleField

  /** The paths the schema's validators refuse: `username` and `email` are
      required (an empty string counts as missing), `email` must match the
      pattern, a newly assigned password (`password` is Some) must be at
      least six UTF-16 code units long, and a supplied role must be in the enumeration.
      A password that was not assigned is the stored hash and is not checked. */
  function Violations(username: string, email: string, password: Option<string>,
                      role: Option<string>, emailPattern: string -> bool): (v: set<Field>)
    ensures v == {} <==>
      username != "" && email != "" && emailPattern(email)
      && (password.Some? ==> Utf16Length(password.value) >= PASSWORD_MIN_LENGTH)
      && RoleFor(role).Some?
  {
    (if username == "" then {UsernameField} else {})
    + (if email == "" || !emailPattern(email) then {EmailField} else {})
    + (if password.Some? && Utf16Length(password.value) < PASSWORD_MIN_LENGTH then {PasswordField} else {})
    + (if RoleFor(role).None? then {RoleField} else {})
  }

  /** The paths refused by the validators a validated update runs: only the
      paths the update supplies are checked, with the same rules as a save. */
  function UpdateViolations(username: Option<string>, email: Option<string>,
                            emailPattern: string -> bool): (v: set<Field>)
    ensures username.Some? && email.Some? ==> v == Violations(username.value, email.value, None, None, emailPattern)
    ensures username.None? && email.None? ==> v == {}
    ensures v <= {UsernameField, EmailField}
    ensures UsernameField in v <==>
      username.Some? && UsernameField in Violations(username.value, "", None, None, emailPattern)
    ensures EmailField in v <==>
      email.Some? && EmailField in Violations("", email.value, None, None, emailPattern)
  {
    (if username == Some("") then {UsernameField} else {})
    + (if email.Some? && (email.value == "" || !emailPattern(email.value)) then {EmailField} else {})
  }

  /** A reset token is valid for ten minutes after it is issued. */
  const RESET_TOKEN_LIFETIME_MS := 10 * 60 * 1000

  /** The reset condition of the password-reset request: the stored token is
      the digest of the candidate and the stored expiry is strictly later
      than now.  An account with no pending token never qualifies. */
  predicate ResetTokenAccepts(token: Option<string>, expire: Option<int>, digest: string, now: int) {
    token == Some(digest) && expire.Some? && expire.value > now
  }

  /** A freshly issued token is accepted exactly until its expiry: at any
      instant strictly before issue time + 10 minutes, and at no later one. */
  lemma IssuedTokenLifetime(prim: Primitives, raw: string, issuedAt: int, now: int)
    ensures ResetTokenAccepts(Some(prim.sha256Hex(raw)), Some(issuedAt + RESET_TOKEN_LIFETIME_MS),
                              prim.sha256Hex(raw), now)
            <==> now < issuedAt + 600000
  {
  }

  /** A candidate other than the issued token is refused whatever the time,
      as long as SHA-256 gives the two different digests. */
  lemma OtherTokenRefused(prim: Primitives, raw: string, candidate: string, expire: Option<int>, now: int)
    requires prim.sha256Hex(candidate) != prim.sha256Hex(raw)
    ensures !ResetTokenAccepts(Some(prim.sha256Hex(raw)), expire, prim.sha256Hex(candidate), now)
  {
  }

  /** An account with no pending token accepts no candidate. */
  lemma ClearedTokenRefusesAll(digest: string, now: int)
    ensures !ResetTokenAccepts(None, None, digest, now)
  {
  }

  /** The stored fields of an account, the contract list by value. */
  datatype Document = Document(
    id: string,
    username: string,
    email: string,
    role: Role,
    password: string,
    passwordModified: bool,
    resetPasswordToken: Option<string>,
    resetPasswordExpire: Option<int>,
    entryDate: Option<int>,
    actif: bool,
    contrats: seq<Contract>,
    photo: Option<string>,
    customer: Option<string>)

  /** What the save hook makes of a document at instant `now`. */
  function AfterHook(d: Document, prim: Primitives, salt: string, now: int): Document {
    d.(password := if d.passwordModified then prim.bcryptHash(d.password, salt) else d.password,
       contrats := SortByStart(d.contrats),
       entryDate := if d.entryDate.None? && |d.contrats| > 0 then Some(EarliestStart(d.contrats)) else d.entryDate,
       actif := AnyActive(d.contrats, now))
  }

  /** What a save stores: the hook's result, with the password no longer a fresh assignment. */
  function Saved(d: Document, prim: Primitives, salt: string, now: int): Document {
    AfterHook(d, prim, salt, now).(passwordModified := false)
  }

  /** What the hook promises, field by field: the password is hashed exactly
      when it was assigned; the contracts are a stable sort of the old ones
      by start date; the entry date is set once, to the earliest start, and
      only when there is a contract; `actif` says whether some contract is
      running at `now` (so it is false with no contracts); nothing else
      changes. */
  lemma HookProperties(d: Document, prim: Primitives, salt: string, now: int)
    ensures var h := AfterHook(d, prim, salt, now);
      && (d.passwordModified ==> h.password == prim.bcryptHash(d.password, salt))
      && (!d.passwordModified ==> h.password == d.password)
      && Sorted(h.contrats) && multiset(h.contrats) == multiset(d.contrats)
      && (forall k :: StartRun(h.contrats, k) == StartRun(d.contrats, k))
      && (d.entryDate.None? && |d.contrats| > 0 ==>
            h.entryDate.Some?
            && (forall i :: 0 <= i < |d.contrats| ==> h.entryDate.value <= d.contrats[i].dateDebut)
            && (exists i :: 0 <= i < |d.contrats| && d.contrats[i].dateDebut == h.entryDate.value))
      && (d.entryDate.Some? || |d.contrats| == 0 ==> h.entryDate == d.entryDate)
      && (h.actif <==> exists i :: 0 <= i < |d.contrats| && IsActive(d.contrats[i], now))
      && (|d.contrats| == 0 ==> !h.actif)
      && h.(password := d.password, contrats := d.contrats, entryDate := d.entryDate, actif := d.actif) == d
  {
    SortByStartSorted(d.contrats);
    SortByStartPermutes(d.contrats);
    forall k ensures StartRun(SortByStart(d.contrats), k) == StartRun(d.contrats, k) {
      SortByStartStable(d.contrats, k);
    }
  }

  /** Saving twice at the same instant stores what saving once stores: every
      field the hook derives is recomputed from inputs the first save already
      settled. */
  lemma {:induction false} SaveIdempotent(d: Document, prim: Primitives, salt: string, salt': string, now: int)
    ensures Saved(Saved(d, prim, salt, now), prim, salt', now) == Saved(d, prim, salt, now)
  {
    var once := Saved(d, prim, salt, now);
    SortByStartSorted(d.contrats);
    SortByStartFixesSorted(once.contrats);
    SortKeepsEarliestAndActive(d.contrats, now);
    SortKeepsEarliestAndActive(once.contrats, now);
  }

  /** The forgot-password rollback: a save that stored a pending token, then
      the clearing of both reset fields and a second save, store exactly what
      one save of the document without a pending token stores. */
  lemma RollbackRestores(d: Document, prim: Primitives, token: Option<string>, expire: Option<int>,
                         salt: string, salt': string, now: int)
    ensures Saved(Saved(d.(resetPasswordToken := token, resetPasswordExpire := expire), prim, salt, now)
                    .(resetPasswordToken := None, resetPasswordExpire := None), prim, salt', now)
            == Saved(d.(resetPasswordToken := None, resetPasswordExpire := None), prim, salt, now)
  {
    var cleared := d.(resetPasswordToken := None, resetPasswordExpire := None);
    assert Saved(d.(resetPasswordToken := token, resetPasswordExpire := expire), prim, salt, now)
             .(resetPasswordToken := None, resetPasswordExpire := None)
           == Saved(cleared, prim, salt, now);
    SaveIdempotent(cleared, prim, salt, salt', now);
  }

  /** After a save that hashed a newly assigned password, that password is the
      one the account accepts: bcrypt verifies it against the stored hash and,
      if bcrypt refuses plaintexts with another key, a password whose first
      72 UTF-8 bytes differ from it does not match. */
  lemma SavedPasswordMatches(d: Document, prim: Primitives, plain: string, other: string, salt: string, now: int)
    requires BcryptVerifiesOwnHash(prim)
    ensures var s := Saved(d.(password := plain, passwordModified := true), prim, salt, now);
      && prim.bcryptCompare(plain, s.password)
      && (BcryptRefusesOthers(prim) && BcryptKey(other) != BcryptKey(plain) ==> !prim.bcryptCompare(other, s.password))
  {
  }

  class Account {
    const id: string
    var username: string
    var email: string
    var role: Role
    /** the plaintext just assigned while `passwordModified`, the bcrypt hash otherwise */
    var password: string
    var passwordModified: bool
    var resetPasswordToken: Option<string>
    var resetPasswordExpire: Option<int>
    var entryDate: Option<int>
    var actif: bool
    /** the populated contract list, sorted in place by the save hook */
    const contrats: array<Contract>
    var photo: Option<string>
    var customer: Option<string>

    function Doc(): Document
      reads this, contrats
    {
      Document(id, username, email, role, password, passwordModified, resetPasswordToken,
               resetPasswordExpire, entryDate, actif, contrats[..], photo, customer)
    }

    /** A new, unsaved document, as the model's constructor builds it from a
        request: the password is the plaintext just assigned, nothing else is set. */
    constructor (id: string, username: string, email: string, password: string, role: Role)
      ensures fresh(contrats)
      ensures Doc() == Document(id, username, email, role, password, true, None, None, None,
                                false, [], None, None)
    {
      this.id := id;
      this.username := username;
      this.email := email;
      this.role := role;
      this.password := password;
      passwordModified := true;
      resetPasswordToken := None;
      resetPasswordExpire := None;
      entryDate := None;
      actif := false;
      contrats := new Contract[0];
      photo := None;
      customer := None;
    }

    /** Assigns a new plaintext password, hashed by the next save if the
        assignment counts as a modification.  `loaded` says whether the query
        that produced this document selected its password: if it did, the
        assignment of the very value loaded is no modification; if it did
        not, every assignment is one. */
    method SetPassword(plain: string, loaded: bool)
      modifies this
      ensures Doc() == old(Doc()).(password := plain,
                                   passwordModified := old(passwordModified) || !loaded || plain != old(password))
      ensures loaded && !old(passwordModified) && plain == old(password) ==> Doc() == old(Doc())
    {
      passwordModified := passwordModified || !loaded || plain != password;
      password := plain;
    }

    /** The pre-save hook.  It hashes the password if it was assigned since
        the last save, sorts the contracts by start date (stably), sets the
        entry date to the earliest start if it had none and there is a
        contract, and sets `actif` to whether some contract is running at
        `now`. */
    method PreSave(prim: Primitives, salt: string, now: int)
      modifies this, contrats
      ensures Doc() == AfterHook(old(Doc()), prim, salt, now)
    {
      ghost var before := Doc();
      ghost var after := AfterHook(before, prim, salt, now);
      if passwordModified {
        password := prim.bcryptHash(password, salt);
      }
      SortInPlace(contrats);
      SortKeepsEarliestAndActive(before.contrats, now);
      if entryDate.None? && contrats.Length > 0 {
        entryDate := Some(contrats[0].dateDebut);
      }
      var hasActiveContract := FindActive(contrats, now);
      actif := hasActiveContract;
      assert password == after.password && entryDate == after.entryDate;
      assert contrats[..] == after.contrats && actif == after.actif;
    }

    /** Persists the document: the hook runs, and the stored password is no
        longer a fresh assignment. */
    method Save(prim: Primitives, salt: string, now: int)
      modifies this, contrats
      ensures Doc() == Saved(old(Doc()), prim, salt, now)
    {
      PreSave(prim, salt, now);
      passwordModified := false;
    }

    /** Whether `entered` is the password whose hash is stored. */
    function MatchPassword(prim: Primitives, entered: string): bool
      reads this
    {
      prim.bcryptCompare(entered, password)
    }

    /** The signed session token for this account, issued at `now`. */
    function SignedJwtToken(prim: Primitives, now: int): string {
      prim.signJwt(id, now)
    }

    /** Issues a reset token: `randomHex` is the hex text of the twenty random
        bytes.  The raw token is returned for delivery; only its SHA-256 digest
        is stored, with an expiry ten minutes after `now`. */
    method GetResetPasswordToken(prim: Primitives, randomHex: string, now: int) returns (resetToken: string)
      modifies this
      ensures resetToken == randomHex
      ensures Doc() == old(Doc()).(resetPasswordToken := Some(prim.sha256Hex(resetToken)),
                                   resetPasswordExpire := Some(now + RESET_TOKEN_LIFETIME_MS))
      ensures ResetTokenAccepts(resetPasswordToken, resetPasswordExpire, prim.sha256Hex(resetToken), now)
    {
      resetToken := randomHex;
      resetPasswordToken := Some(prim.sha256Hex(resetToken));
      resetPasswordExpire := Some(now + RESET_TOKEN_LIFETIME_MS);
    }
  }
}

=== FILE: users_controller.dfy ===
/**
  The user-administration handlers that carry logic: creating an account
  (stored first, then announced by e-mail) and the profile-photo upload,
  whose checks run in a fixed order before the file is moved and the
  account's `photo` is set.
*/
module UsersController {
  import opened Wrappers
  import opened Environment
  import opened UserModel
  import opened Storage
  import opened Http

  /** An uploaded file as the upload middleware describes it. */
  datatype UploadedFile = UploadedFile(name: string, mimetype: string, size: int)

  /** `req.files`: absent, or present with the files sent under `photo`
      (none, one, or several, which the upload middleware gives as an array). */
  datatype Upload =
    | NoFiles
    | Files(photos: seq<UploadedFile>)

  /** The stored name of a profile photo: the account id after a fixed
      prefix, then the extension of the uploaded file's own name. */
  function PhotoFileName(id: string, ext: string): string {
    "profile_" + id + ext
  }

  /** A photo name can be read back: its prefix, the account id and the
      extension sit at fixed positions. */
  lemma PhotoNameParts(id: string, ext: string)
    ensures var name := PhotoFileName(id, ext);
      && |name| == 8 + |id| + |ext|
      && name[..8] == "profile_" && name[8..8 + |id|] == id && name[8 + |id|..] == ext
  {
  }

  /** Two accounts whose ids have the same length (as ObjectIds do) never
      share a photo file: the name determines both the id and the extension. */
  lemma PhotoNamesDistinct(id: string, id': string, ext: string, ext': string)
    requires |id| == |id'|
    ensures PhotoFileName(id, ext) == PhotoFileName(id', ext') <==> id == id' && ext == ext'
  {
    if PhotoFileName(id, ext) == PhotoFileName(id', ext') {
      PhotoNameParts(id, ext);
      PhotoNameParts(id', ext');
    }
  }

  /** Create user: `User.create` first (validated, hashed, unique email), then
      the notification mail.  A mail that cannot be delivered gives 500, but
      the account stays stored. */
  method CreateUser(db: UserStore, prim: Primitives, newId: string, username: string, email: string,
                    password: string, role: Option<string>, salt: string, now: int, delivered: bool)
    returns (r: Response)
    requires db.Valid()
    requires db.FindOne(ById(newId)).None?
    modifies db
    ensures db.Valid()
    ensures var v := Violations(username, email, Some(password), role, prim.emailPattern);
      if v != {} then r == ValidationError(v) && db.users == old(db.users)
      else if old(db.FindOne(ByEmail(email))).Some? then r == DuplicateKey && db.users == old(db.users)
      else
        && |db.users| == |old(db.users)| + 1 && db.users[..|old(db.users)|] == old(db.users)
        && var a := db.users[|db.users| - 1];
           && a.Doc() == Document(newId, username, email, RoleFor(role).value,
                                  prim.bcryptHash(password, salt), false, None, None, None,
                                  false, [], None, None)
           && (delivered ==> r == Json(201, AccountData(a), None))
           && (!delivered ==> r == ErrorResponse("Email could not be sent", 500))
  {
    var created := db.Create(prim, newId, username, email, password, role, salt, now);
    match created
    case Invalid(v) => r := ValidationError(v);
    case DuplicateEmail => r := DuplicateKey;
    case Ok(a) =>
      assert db.users[..|old(db.users)|] == old(db.users);
      if delivered {
        r := Json(201, AccountData(a), None);
      } else {
        r := ErrorResponse("Email could not be sent", 500);
      }
  }

  /** Upload user photo.  The checks, in order: the account exists (404),
      files were sent (400), the file is an image (400), it is no larger
      than MAX_FILE_UPLOAD (400; a file of exactly that size passes).  Then
      the file is moved under its new name; only when the move succeeds is
      that name stored as the account's `photo` and returned.  `ext` is the
      extension of the uploaded name, `moved` the outcome of the move.  A
      request whose files hold no `photo` makes the handler read a property
      of `undefined`; one with several makes it read `mimetype` of an array,
      which is `undefined`, and call a method on it. */
  method UploadUserPhoto(db: UserStore, env: Settings, id: string, upload: Upload, ext: string, moved: bool)
    returns (r: Response)
    requires db.Valid()
    modifies db.users
    ensures db.Valid() && db.users == old(db.users)
    ensures !r.Json? ==> forall a :: a in db.users ==> a.Doc() == old(a.Doc())
    ensures var target := old(db.FindOne(ById(id)));
      if target.None? then r == ErrorResponse("User not found with id of " + id, 404)
      else if upload.NoFiles? then r == ErrorResponse("Please upload a file", 400)
      else if |upload.photos| != 1 then r == Unhandled
      else if !("image" <= upload.photos[0].mimetype) then r == ErrorResponse("Please upload an image file", 400)
      else if upload.photos[0].size > env.maxFileUpload then
        r == ErrorResponse("Please upload an image less than " + env.maxFileUploadText, 400)
      else if !moved then r == ErrorResponse("Problem with file upload", 500)
      else
        var u := target.value;
        && r == Json(200, TextData(PhotoFileName(id, ext)), None)
        && u.Doc() == old(u.Doc()).(photo := Some(PhotoFileName(id, ext)))
        && forall a :: a in db.users && a != u ==> a.Doc() == old(a.Doc())
  {
    var user := db.FindOne(ById(id));
    if user.None? {
      return ErrorResponse("User not found with id of " + id, 404);
    }
    if upload.NoFiles? {
      return ErrorResponse("Please upload a file", 400);
    }
    if |upload.photos| != 1 {
      return Unhandled;
    }
    var file := upload.photos[0];
    if !("image" <= file.mimetype) {
      return ErrorResponse("Please upload an image file", 400);
    }
    if file.size > env.maxFileUpload {
      return ErrorResponse("Please upload an image less than " + env.maxFileUploadText, 400);
    }
    var u := user.value;
    file := file.(name := PhotoFileName(u.id, ext));
    if !moved {
      return ErrorResponse("Problem with file upload", 500);
    }
    u.photo := Some(file.name);
    r := Json(200, TextData(file.name), None);
  }
}

=== FILE: wrappers.dfy ===
/** Optional values: a field that may be unset, a lookup that may find nothing. */
module Wrappers {

  datatype Option<+T> = None | Some(value: T)
}
